=== FILE: README.md ===
# Line-array placement planner — a Dafny model

`speaker_pos.c` plans the main line arrays for a venue. The hall has a width, a
length (used as its height) and a depth from the stage to the back wall. The
program first validates the hall and the speaker data sheet. It then derives
the spacing between arrays from the floor footprint of the topmost cabinet
aimed at the back wall. It uses as many arrays as that spacing needs to span
the width, centred in the hall.

Each array is then "stacked". Cabinet by cabinet, from the top mount height
downwards, each cabinet is aimed so that its coverage on the floor ends where
the previous cabinet's coverage began. The first cabinet's coverage ends at the
back wall. Stacking stops in three cases:

- the next cabinet would hang at or below the floor clearance;
- its coverage would reach the stage;
- twenty cabinets have been placed.

Each placed cabinet is appended to one shared buffer while the buffer holds
fewer than 100 records; once it is full, further placements are dropped.

The model is split into four modules:

- `Geometry` (geometry.dfy) holds the footprint ellipse (`get_ellipse_axes`)
  and the tilt solver (`compute_tilt_for_end_distance`).
- `Venue` (venue.dfy) holds the records and `validate_inputs`.
- `Stacker` (stacker.dfy) covers `calculate_array_configuration`:
  - a recursive reference definition of one array's run (`StackFrom`);
  - its `for` loop as a method proved to compute that run
    (`CalculateArrayConfiguration`);
  - the shape of the run;
  - the 100-record buffer (`Store`).
- `Layout` (layout.dfy) holds the arithmetic of `main`:
  - the spacing, the array count and the centred first position;
  - the loop over arrays;
  - the validate / space / stack pipeline (`PlanVenue`).

The math library (`tanf`, `atanf`, `sinf`) is a parameter: a `Trig` value
carrying three `real -> real` functions. Every property below therefore holds
whatever those functions compute. `float` is modelled by `real`.

## Model

| member | source | states |
|---|---|---|
| Geometry.EllipseAxes | speaker_pos.c:53-78 | Both axes are never negative, and a non-positive mount height gives the zero footprint. |
| Geometry.EllipseAxesEdges | speaker_pos.c:68-77 | For a positive height, the major axis is positive exactly when the cone's far floor edge lies beyond its near edge, and it then equals their distance. The minor axis is positive exactly when the cone spreads sideways, and it then equals twice the half spread. |
| Geometry.TiltForEndDistance | speaker_pos.c:80-88 | Any non-positive height, target distance or vertical dispersion gives tilt 0. Otherwise the tilt plus half the dispersion is the line-of-sight angle `atan(target / height)`. |
| Geometry.FarEdgeReachesTarget | speaker_pos.c:80-88 | Where `tan` inverts `atan`, the solved tilt puts the footprint's far edge exactly on the target distance. |
| Venue.ValidateInputs | speaker_pos.c:90-108 | A run is accepted iff all hall dimensions and the box height and both dispersions are positive. It is rejected for the hall iff a hall dimension is not positive. It is rejected for the speaker iff the hall is fine but a speaker field is not. |
| Stacker.AimCabinet | speaker_pos.c:161-170 | The pitch is the tilt solved at the mount height for the target end. Both footprint axes are non-negative. When the mouth, lowered by box height times the sine of the pitch, is at or below the floor, the footprint is zero. For a mouth above the floor, `AimAtMouth` gives the footprint's value. |
| Stacker.AimAtMouth | speaker_pos.c:164-170 | For a mouth above the floor, at height − box·sin(pitch), the footprint is the cone's cut at the mouth with the solved pitch. Its length is positive exactly when the far edge lies beyond the near edge, and then equals their distance. Its width, when positive, is twice the half spread at the mouth. |
| Stacker.CoverageStart | speaker_pos.c:168-172 | A cabinet's coverage never starts behind the distance it was aimed to end at. |
| Stacker.StepAt | speaker_pos.c:155-188 | One loop pass stops for the floor iff the candidate height is at or below the clearance. It stops for the stage iff the height is above the clearance and the coverage start is at or before 0. Otherwise the record has id i+1, height base − i·box above the floor, and interval (start, end] with 0 < start ≤ end = the target end, plus the array's id and x. The stored pitch is the tilt solved at that height for the target end, and the stored width is the footprint's minor axis, which is non-negative. |
| Stacker.StackFrom | speaker_pos.c:154-209 | From index i, a run places at most 20 − i cabinets, and it stops for the cap exactly when it placed that many. |
| Stacker.StackShape | speaker_pos.c:155-201 | From any index, a run's records are indexed consecutively from that index and tile back to front from the target end. Every interval lies in (0, target end], and later intervals lie nearer the stage. |
| Stacker.ArrayShape | speaker_pos.c:147-209 | For a whole array, there are at most 20 records, and the cap is the stop reason iff 20 were placed. Record k has id k+1 and height base − k·box above the floor clearance. The first interval ends at the hall depth, and each later one ends where the previous one starts. All intervals lie in (0, depth] and come in back-to-front order. Each record is the cabinet aimed from its height at its interval's far end: the pitch is the tilt solved for that end, the width is the footprint's minor axis (non-negative), and the interval is exactly as long as the footprint's major axis. |
| Stacker.StackAimed | speaker_pos.c:161-186 | From any index, every record's pitch is the tilt solved at its mount height for its interval's far end. Its width is that cabinet's footprint minor axis, which is non-negative. Its interval length, end − start, is that footprint's major axis. |
| Stacker.HeightsDescend | speaker_pos.c:155 | With a positive box height, mount heights strictly decrease down the array. |
| Stacker.StopFrom | speaker_pos.c:156-176 | From any index, each stop reason is justified by the candidate that was not placed: at or below the floor for a floor stop; coverage reaching the stage for a stage stop; index 20 reached for a cap stop. |
| Stacker.ArrayStop | speaker_pos.c:156-208 | The same stop justification for a whole array's run. |
| Stacker.NothingBelowFloor | speaker_pos.c:155-158 | A top mount height at or below the floor clearance places nothing, and the stop reason is the floor. |
| Stacker.Store | speaker_pos.c:179-190 | Appending a run to the buffer never shrinks it and adds at most the run's length. A buffer holding at most 100 entries still holds at most 100 afterwards. |
| Stacker.StoreSpec | speaker_pos.c:179-190 | The buffer keeps every earlier entry unchanged, and new entries are the first placements in order. It never exceeds 100 entries and never shrinks. A placement is dropped only once the buffer is full. |
| Stacker.StoreOne | speaker_pos.c:179-190 | Storing one more record is the guarded append of line 179: the record is appended if fewer than 100 are held, and otherwise the buffer stays as it is. |
| Stacker.StoreTwice | speaker_pos.c:179-190 | Storing two batches in turn equals storing them together, so arrays can share one buffer. |
| Stacker.LoopIsStack | speaker_pos.c:154-209 | The loop, continued from any index with the records already placed, produces those records followed by the reference run. |
| Stacker.CalculateArrayConfiguration | speaker_pos.c:144-211 | The loop yields exactly the reference run of the array. The buffer after the call is the buffer before it with the run stored. There are at most 20 records, the cap is the stop reason iff 20 were placed, and the run is well stacked (indices, tiling, bounds, order). Every pitch is the tilt solved for its interval, every width is the footprint's minor axis (non-negative), and every interval is as long as the footprint's major axis. |
| Layout.Ceil | speaker_pos.c:276 | `ceilf` on the reals: the least integer not below its argument. |
| Layout.TopFootprint | speaker_pos.c:270-273 | The top cabinet's footprint, aimed at the back wall, has non-negative axes. It is zero for a non-positive mount height. Otherwise its width is positive exactly when the cone spreads sideways, and it is then twice the half spread, 2·h·tan(φ/2). |
| Layout.ArraySpacing | speaker_pos.c:270-277 | There is no spacing iff the top footprint width times the overlap is not positive. Otherwise the step is that product, n arrays are the least count with (n−1)·step < width ≤ n·step, and the margin before the first array equals the margin after the last. |
| Layout.CeilSteps | speaker_pos.c:276 | The least number of steps covering a width overshoots it by less than one step. |
| Layout.StepsIsProduct | speaker_pos.c:287 | `a` repeated steps equal the product `a * step` used for an array's position. |
| Layout.CentredMargins | speaker_pos.c:275-277 | A centred covering of a positive width has at least one array and a margin in (0, step/2]. |
| Layout.CentredArrayInside | speaker_pos.c:277-287 | Every array of a centred covering stands strictly inside the hall. |
| Layout.CentredMirror | speaker_pos.c:277-287 | The first and last arrays lie symmetrically about the hall's centre line. |
| Layout.FillsOutsideHall | speaker_pos.c:296-306 | With centred arrays, the left fill position is never right of the wall and the right fill position is never left of the far wall, so neither fill guard can hold. |
| Layout.ArraysInsideHall | speaker_pos.c:270-287 | For a hall of positive width, the computed spacing gives at least one array, a margin in (0, step/2], and every array strictly inside the hall. Neighbours are one step apart, and the first and last arrays mirror each other. |
| Layout.GroupedAppend | speaker_pos.c:286-290 | Appending records of array n at its position to records grouped for arrays 1..n−1 gives records grouped for arrays 1..n. |
| Layout.RecordsOfArray | speaker_pos.c:187-188 | Every record an array places carries that array's id and x position. |
| Layout.AllPlacedGrouped | speaker_pos.c:286-290 | The records of arrays 1..n, in call order, have ids in 1..n and each sits at its array's x. The ids never decrease. |
| Layout.GroupedPrefix | speaker_pos.c:179 | A prefix of grouped records is grouped. |
| Layout.StoreKeepsGrouped | speaker_pos.c:179-190 | The buffer keeps a grouped prefix of at most 100 of all records placed. |
| Layout.NextArray | speaker_pos.c:286-290 | Storing array a's run after arrays 0..a−1 gives the buffer for arrays 0..a. |
| Layout.ConfigureArray | speaker_pos.c:287-289 | One pass of the array loop places array a at `startX + a·step` with id a+1, and extends the buffer from arrays 0..a−1 to arrays 0..a. |
| Layout.ConfigureArrays | speaker_pos.c:283-290 | The buffer ends up holding the first 100 of all arrays' records, in array order and grouped by array at their positions. |
| Layout.PlanVenue | speaker_pos.c:259-290 | A run is rejected, with the reason `validate_inputs` reports, iff validation fails. The spacing is undefined iff validation passes but the step is not positive. Otherwise there is at least one array, and the buffer holds the first at most 100 records of all arrays, grouped by array. |

## Left out

- Printing is not modelled. This covers the table rows, the stop messages, the venue drawing, the summary and the fill and delay lines (lines 110-142, 150-152, 157, 174, 198-199, 206, 210, 213-233, 280, 293-308).
- The per-cabinet notes (lines 192-196) are not modelled: they only choose a string to print.
- The fill and delay section (lines 296-308) is printing only. `Layout.FillsOutsideHall` shows that its two guards can never hold for centred arrays.
- The math library is not modelled: `tanf`, `atanf` and `sinf` are parameters, so facts that depend on their values are stated against them (for example `FarEdgeReachesTarget` requires that `tan` inverts `atan` at the slope used).
- Single-precision rounding is not modelled: `float` arithmetic is exact `real` arithmetic.
- The NULL-pointer branches of `get_ellipse_axes` (line 62) and `validate_inputs` (lines 91-94) are not modelled, because Dafny values cannot be null.
- The hard-coded hall and K2 data sheet of `main` (lines 236-257) are not modelled. `PlanVenue` takes the hall and the speaker as parameters; the constants `base_height = length − 1`, `target_floor = 0.1` and `overlap_factor = 0.5` are kept.
- Layout.ArraySpacing: a step that is not positive gives `None`. `main` divides the width by it and converts the result with `(int)`, which is undefined behaviour in C. An array count too large for `int` is likewise not modelled.
- Venue.ValidateInputs: follows the code, which only checks that the dispersions are positive, so dispersions of 180 degrees or more are accepted.
- Stacker.StepAt: follows the code, which rejects a cabinet only when its coverage start is at or before 0. A zero-length footprint (start = end) is therefore placed.
- The buffer is a sequence rather than a fixed array of 100 records; `Store` keeps the rule of `calculate_array_configuration` of writing a record only while fewer than 100 are held.

=== FILE: geometry.dfy ===
/** Geometry primitives of the speaker planner: the ground footprint of one
    cabinet's coverage cone and the tilt that aims its far edge at a target.

    The C math library (`tanf`, `atanf`, `sinf`) is not modelled: its three
    functions are passed in as a `Trig` value, so every fact proved here holds
    for whatever the library computes. Single-precision `float` is modelled
    by `real`.
 */
module Geometry {

  /** The three math-library functions the planner calls, all in radians. */
  datatype Trig = Trig(tan: real -> real, atan: real -> real, sin: real -> real)

  /** `M_PI` as written in the C headers. */
  const Pi: real := 3.14159265358979323846

  function Radians(deg: real): real { deg * Pi / 180.0 }

  function Degrees(rad: real): real { rad * 180.0 / Pi }

  function Max(a: real, b: real): real { if a < b then b else a }

  /** The (major, minor) axes of the elliptic footprint on the floor. */
  datatype Axes = Axes(major: real, minor: real)

  /** Ground distance at which the upper (far) edge of the vertical coverage
      cone meets the floor, for a mouth at `height` whose axis is `tiltDeg`
      from the vertical. */
  function FarEdge(t: Trig, height: real, tiltDeg: real, vDispDeg: real): real
  {
    height * t.tan(Radians(tiltDeg) + Radians(vDispDeg) / 2.0)
  }

  /** Ground distance at which the lower (near) edge of the cone meets the floor. */
  function NearEdge(t: Trig, height: real, tiltDeg: real, vDispDeg: real): real
  {
    height * t.tan(Radians(tiltDeg) - Radians(vDispDeg) / 2.0)
  }

  /** Half the horizontal spread of the cone at distance `height`. */
  function HalfSpread(t: Trig, height: real, hDispDeg: real): real
  {
    height * t.tan(Radians(hDispDeg) / 2.0)
  }

  /** `get_ellipse_axes`: the major axis is the ground length between the
      cone's near and far edges, the minor axis its horizontal width; both are
      clamped at zero, and a non-positive height yields the "safe zero"
      footprint. */
  function EllipseAxes(t: Trig, height: real, tiltDeg: real, vDispDeg: real, hDispDeg: real): (r: Axes)
    ensures r.major >= 0.0 && r.minor >= 0.0
    ensures height <= 0.0 ==> r == Axes(0.0, 0.0)
  {
    if height <= 0.0 then
      Axes(0.0, 0.0)
    else
      var alpha := Radians(tiltDeg);
      var theta := Radians(vDispDeg);
      var phi := Radians(hDispDeg);
      var major := height * (t.tan(alpha + theta / 2.0) - t.tan(alpha - theta / 2.0));
      var minor := 2.0 * height * t.tan(phi / 2.0);
      Axes(Max(0.0, major), Max(0.0, minor))
  }

  /** Away from the safe-zero case the footprint is what the cone's edges
      cut out of the floor: its length is positive exactly when the far edge
      lies beyond the near edge, and is then their distance apart; its width
      is positive exactly when the cone spreads sideways, and is then twice
      the half spread. */
  lemma EllipseAxesEdges(t: Trig, height: real, tiltDeg: real, vDispDeg: real, hDispDeg: real)
    requires height > 0.0
    ensures var r := EllipseAxes(t, height, tiltDeg, vDispDeg, hDispDeg);
            && (r.major > 0.0 <==> FarEdge(t, height, tiltDeg, vDispDeg) > NearEdge(t, height, tiltDeg, vDispDeg))
            && (r.major > 0.0 ==> r.major == FarEdge(t, height, tiltDeg, vDispDeg) - NearEdge(t, height, tiltDeg, vDispDeg))
            && (r.minor > 0.0 <==> HalfSpread(t, height, hDispDeg) > 0.0)
            && (r.minor > 0.0 ==> r.minor == 2.0 * HalfSpread(t, height, hDispDeg))
  {
    var a := Radians(tiltDeg);
    var th := Radians(vDispDeg);
    assert FarEdge(t, height, tiltDeg, vDispDeg) - NearEdge(t, height, tiltDeg, vDispDeg)
        == height * (t.tan(a + th / 2.0) - t.tan(a - th / 2.0));
  }

  /** `compute_tilt_for_end_distance`: the tilt, in degrees from the vertical, that
      points the far edge of the cone (tilt plus half the vertical dispersion)
      along the line of sight to the floor point `targetDistance` away.
      Any non-positive input yields 0. */
  function TiltForEndDistance(t: Trig, height: real, vDispDeg: real, targetDistance: real): (r: real)
    ensures height <= 0.0 || targetDistance <= 0.0 || vDispDeg <= 0.0 ==> r == 0.0
    ensures height > 0.0 && targetDistance > 0.0 && vDispDeg > 0.0 ==>
              Radians(r) + Radians(vDispDeg) / 2.0 == t.atan(targetDistance / height)
  {
    if height <= 0.0 || targetDistance <= 0.0 || vDispDeg <= 0.0 then
      0.0
    else
      var theta := Radians(vDispDeg);
      var alpha := t.atan(targetDistance / height) - theta / 2.0;
      Degrees(alpha)
  }

  /** Where `tan` inverts `atan` at the line-of-sight slope, the tilt from
      `TiltForEndDistance` lands the footprint's far edge exactly on the
      target, for a mouth at the height the tilt was solved for. */
  lemma FarEdgeReachesTarget(t: Trig, height: real, vDispDeg: real, targetDistance: real)
    requires height > 0.0 && targetDistance > 0.0 && vDispDeg > 0.0
    requires t.tan(t.atan(targetDistance / height)) == targetDistance / height
    ensures FarEdge(t, height, TiltForEndDistance(t, height, vDispDeg, targetDistance), vDispDeg) == targetDistance
  {
    var tilt := TiltForEndDistance(t, height, vDispDeg, targetDistance);
    assert Radians(tilt) + Radians(vDispDeg) / 2.0 == t.atan(targetDistance / height);
    assert height * (targetDistance / height) == targetDistance;
  }
}

=== FILE: layout.dfy ===
/** The layout arithmetic of the planner's entry point: the array spacing
    derived from the top cabinet's footprint, the number of arrays needed to
    span the hall's width, their centred positions, and the run of the
    stacker once per array into the shared record buffer.
 */
module Layout {
  import opened Geometry
  import opened Venue
  import opened Stacker

  datatype Option<T> = None | Some(value: T)

  /** `ceilf` on the reals: the least integer not below `x`. */
  function Ceil(x: real): (n: int)
    ensures n as real - 1.0 < x <= n as real
  {
    -((-x).Floor)
  }

  /** Spacing between neighbouring arrays, how many there are, and where
      the first one stands. */
  datatype Spacing = Spacing(step: real, numArrays: int, startX: real)

  /** The footprint of the topmost cabinet, mounted at `baseHeight` and aimed
      at the back wall; its width sets the array spacing. */
  function TopFootprint(t: Trig, env: Environment, speaker: Speaker, baseHeight: real): (r: Axes)
    ensures r.major >= 0.0 && r.minor >= 0.0
    ensures baseHeight <= 0.0 ==> r == Axes(0.0, 0.0)
    ensures baseHeight > 0.0 ==>
              (r.minor > 0.0 <==> HalfSpread(t, baseHeight, speaker.horizDispersionDeg) > 0.0)
    ensures baseHeight > 0.0 && r.minor > 0.0 ==> r.minor == 2.0 * HalfSpread(t, baseHeight, speaker.horizDispersionDeg)
  {
    var testPitch := TiltForEndDistance(t, baseHeight, speaker.vertDispersionDeg, env.depth);
    if baseHeight > 0.0 then
      EllipseAxesEdges(t, baseHeight, testPitch, speaker.vertDispersionDeg, speaker.horizDispersionDeg);
      EllipseAxes(t, baseHeight, testPitch, speaker.vertDispersionDeg, speaker.horizDispersionDeg)
    else
      EllipseAxes(t, baseHeight, testPitch, speaker.vertDispersionDeg, speaker.horizDispersionDeg)
  }

  /** The spacing computation of the entry point. A step that is not
      positive leaves the array count undefined (`main` divides by it
      and converts the result to an integer), so it yields `None`. Otherwise
      the array count is the least number of steps covering the width, and
      the arrays are centred: the margin before the first array equals the
      margin after the last one. */
  function ArraySpacing(t: Trig, env: Environment, speaker: Speaker, baseHeight: real, overlapFactor: real)
    : (r: Option<Spacing>)
    ensures r.None? <==> TopFootprint(t, env, speaker, baseHeight).minor * overlapFactor <= 0.0
    ensures r.Some? ==> r.value.step == TopFootprint(t, env, speaker, baseHeight).minor * overlapFactor
    ensures r.Some? ==> ((r.value.numArrays - 1) as real) * r.value.step < env.width
                        <= (r.value.numArrays as real) * r.value.step
    ensures r.Some? ==> r.value.startX
                        == env.width - (r.value.startX + ((r.value.numArrays - 1) as real) * r.value.step)
  {
    var step := TopFootprint(t, env, speaker, baseHeight).minor * overlapFactor;
    if step <= 0.0 then
      None
    else
      var numArrays := Ceil(env.width / step);
      CeilSteps(env.width, step);
      var startX := (env.width - ((numArrays - 1) as real) * step) / 2.0;
      Some(Spacing(step, numArrays, startX))
  }

  /** The least count of steps covering `width` overshoots it by less than a step. */
  lemma CeilSteps(width: real, step: real)
    requires step > 0.0
    ensures ((Ceil(width / step) - 1) as real) * step < width <= (Ceil(width / step) as real) * step
  {
    var n := Ceil(width / step);
    var q := width / step;
    assert q * step == width;
    assert (n as real - 1.0) < q <= n as real;
    MulMonotone(n as real - 1.0, q, step);
    MulMonotoneWeak(q, n as real, step);
  }

  lemma MulMonotone(a: real, b: real, c: real)
    requires a < b && c > 0.0
    ensures a * c < b * c
  {
    assert b * c - a * c == (b - a) * c;
  }

  lemma MulMonotoneWeak(a: real, b: real, c: real)
    requires a <= b && c > 0.0
    ensures a * c <= b * c
  {
    assert b * c - a * c == (b - a) * c;
  }

  /** `a` steps of length `s`, as repeated addition: the product `a * s`
      (see `StepsIsProduct`) in a form the verifier unfolds only on demand. */
  function Steps(a: nat, s: real): real
  {
    if a == 0 then 0.0 else Steps(a - 1, s) + s
  }

  lemma {:induction false} StepsIsProduct(a: nat, s: real)
    ensures Steps(a, s) == (a as real) * s
  {
    if a > 0 {
      StepsIsProduct(a - 1, s);
      assert (a as real) * s == ((a - 1) as real) * s + s;
    }
  }

  /** x-position of the array with 0-based index `a`: `startX + a * step`. */
  function ArrayX(sp: Spacing, a: nat): real
  {
    sp.startX + Steps(a, sp.step)
  }

  /** The shape `ArraySpacing` promises: a positive step, the least count of
      steps covering `width`, and equal margins before the first array and
      after the last one. */
  predicate CoversCentred(width: real, sp: Spacing)
  {
    && sp.step > 0.0
    && ((sp.numArrays - 1) as real) * sp.step < width <= (sp.numArrays as real) * sp.step
    && sp.startX == width - (sp.startX + ((sp.numArrays - 1) as real) * sp.step)
  }

  /** A centred covering of a positive width has at least one array and a
      margin between zero and half a step. */
  lemma CentredMargins(width: real, sp: Spacing)
    requires width > 0.0 && CoversCentred(width, sp)
    ensures sp.numArrays >= 1
    ensures 0.0 < sp.startX <= sp.step / 2.0
  {
    var n := sp.numArrays;
    if n < 1 {
      MulMonotoneWeak(n as real, 0.0, sp.step);
      assert false;
    }
    MulMonotoneWeak(0.0, (n - 1) as real, sp.step);
    assert (n as real) * sp.step == ((n - 1) as real) * sp.step + sp.step;
  }

  /** Each array of a centred covering stands strictly inside the hall. */
  lemma CentredArrayInside(width: real, sp: Spacing, a: nat)
    requires width > 0.0 && CoversCentred(width, sp) && a < sp.numArrays
    ensures 0.0 < ArrayX(sp, a) < width
  {
    CentredMargins(width, sp);
    StepsIsProduct(a, sp.step);
    MulMonotoneWeak(0.0, a as real, sp.step);
    MulMonotoneWeak(a as real, (sp.numArrays - 1) as real, sp.step);
  }

  /** The first and last arrays of a centred covering mirror each other
      about the hall's centre line. */
  lemma CentredMirror(width: real, sp: Spacing)
    requires width > 0.0 && CoversCentred(width, sp)
    ensures sp.numArrays >= 1
    ensures ArrayX(sp, 0) + ArrayX(sp, sp.numArrays - 1) == width
  {
    CentredMargins(width, sp);
    StepsIsProduct(sp.numArrays - 1, sp.step);
  }

  /** The entry point's fill positions, half a step outside the first and
      last arrays, are never inside the hall when the arrays are centred: the
      margin is at most half a step, so neither fill guard can pass. */
  lemma FillsOutsideHall(width: real, sp: Spacing)
    requires width > 0.0 && CoversCentred(width, sp)
    ensures !(sp.startX - sp.step / 2.0 > 0.0)
    ensures !(sp.startX + ((sp.numArrays - 1) as real) * sp.step + sp.step / 2.0 < width)
  {
    CentredMargins(width, sp);
  }

  /** For a hall of positive width the spacing places at least one array,
      every array stands strictly inside the hall, neighbours are one step
      apart, and the first and last arrays are mirror images about the
      centre line. */
  lemma ArraysInsideHall(t: Trig, env: Environment, speaker: Speaker, baseHeight: real, overlapFactor: real)
    requires env.width > 0.0
    requires ArraySpacing(t, env, speaker, baseHeight, overlapFactor).Some?
    ensures var sp := ArraySpacing(t, env, speaker, baseHeight, overlapFactor).value;
            && sp.numArrays >= 1
            && 0.0 < sp.startX <= sp.step / 2.0
            && (forall a: nat :: a < sp.numArrays ==> 0.0 < ArrayX(sp, a) < env.width)
            && (forall a: nat :: a < sp.numArrays - 1 ==> ArrayX(sp, a + 1) - ArrayX(sp, a) == sp.step)
            && ArrayX(sp, 0) + ArrayX(sp, sp.numArrays - 1) == env.width
  {
    var sp := ArraySpacing(t, env, speaker, baseHeight, overlapFactor).value;
    assert CoversCentred(env.width, sp);
    CentredMargins(env.width, sp);
    CentredMirror(env.width, sp);
    forall a: nat | a < sp.numArrays
      ensures 0.0 < ArrayX(sp, a) < env.width
    {
      CentredArrayInside(env.width, sp, a);
    }
  }

  // ---------------------------------------------------------------------
  // One stacker run per array

  /** The stacker inputs for the array with 0-based index `a`. */
  function JobFor(env: Environment, speaker: Speaker, sp: Spacing, baseHeight: real, targetFloor: real, a: nat): ArrayJob
  {
    ArrayJob(env, speaker, a + 1, ArrayX(sp, a), baseHeight, targetFloor)
  }

  /** Every record placed by the first `n` arrays, in order. */
  function AllPlaced(t: Trig, env: Environment, speaker: Speaker, sp: Spacing, baseHeight: real, targetFloor: real, n: int)
    : seq<SpeakerConfig>
    decreases n
  {
    if n <= 0 then []
    else AllPlaced(t, env, speaker, sp, baseHeight, targetFloor, n - 1)
         + Stack(t, JobFor(env, speaker, sp, baseHeight, targetFloor, n - 1)).placed
  }

  /** Records belong to arrays 1..n, sit at their array's position, and come
      grouped by array in increasing array order. */
  predicate Grouped(sp: Spacing, n: int, s: seq<SpeakerConfig>)
  {
    && (forall k :: 0 <= k < |s| ==> 1 <= s[k].arrayId <= n && s[k].xPosition == ArrayX(sp, s[k].arrayId - 1))
    && (forall j, k :: 0 <= j < k < |s| ==> s[j].arrayId <= s[k].arrayId)
  }

  /** Appending the records of array `n` to a grouped sequence for arrays
      1..n-1 gives a grouped sequence for arrays 1..n. */
  lemma GroupedAppend(sp: Spacing, n: int, prev: seq<SpeakerConfig>, last: seq<SpeakerConfig>)
    requires n >= 1
    requires Grouped(sp, n - 1, prev)
    requires forall k :: 0 <= k < |last| ==> last[k].arrayId == n && last[k].xPosition == ArrayX(sp, n - 1)
    ensures Grouped(sp, n, prev + last)
  {
    var s := prev + last;
    forall k | 0 <= k < |s|
      ensures 1 <= s[k].arrayId <= n && s[k].xPosition == ArrayX(sp, s[k].arrayId - 1)
    {
      if k < |prev| {
        assert s[k] == prev[k];
      } else {
        assert s[k] == last[k - |prev|];
      }
    }
    forall j, k | 0 <= j < k < |s|
      ensures s[j].arrayId <= s[k].arrayId
    {
      if k < |prev| {
        assert s[j] == prev[j] && s[k] == prev[k];
      } else if j < |prev| {
        assert s[j] == prev[j] && s[k] == last[k - |prev|];
      } else {
        assert s[j] == last[j - |prev|] && s[k] == last[k - |prev|];
      }
    }
  }

  /** Every record an array places carries that array's id and position. */
  lemma RecordsOfArray(t: Trig, job: ArrayJob)
    ensures forall k :: 0 <= k < |Stack(t, job).placed| ==>
              Stack(t, job).placed[k].arrayId == job.arrayId && Stack(t, job).placed[k].xPosition == job.arrayX
  {
    ArrayShape(t, job);
  }

  lemma {:induction false} AllPlacedGrouped(t: Trig, env: Environment, speaker: Speaker, sp: Spacing,
                                            baseHeight: real, targetFloor: real, n: int)
    ensures Grouped(sp, n, AllPlaced(t, env, speaker, sp, baseHeight, targetFloor, n))
    decreases n
  {
    if n > 0 {
      var job := JobFor(env, speaker, sp, baseHeight, targetFloor, n - 1);
      AllPlacedGrouped(t, env, speaker, sp, baseHeight, targetFloor, n - 1);
      RecordsOfArray(t, job);
      GroupedAppend(sp, n, AllPlaced(t, env, speaker, sp, baseHeight, targetFloor, n - 1), Stack(t, job).placed);
    }
  }

  /** A prefix of a grouped sequence is grouped. */
  lemma GroupedPrefix(sp: Spacing, n: int, s: seq<SpeakerConfig>, m: nat)
    requires Grouped(sp, n, s) && m <= |s|
    ensures Grouped(sp, n, s[..m])
  {
    var r := s[..m];
    forall j, k | 0 <= j < k < |r|
      ensures r[j].arrayId <= r[k].arrayId
    {
      assert r[j] == s[j] && r[k] == s[k];
    }
  }

  /** The buffer keeps a grouped prefix of every record placed. */
  lemma StoreKeepsGrouped(sp: Spacing, n: int, s: seq<SpeakerConfig>)
    requires Grouped(sp, n, s)
    ensures Grouped(sp, n, Store([], s)) && |Store([], s)| <= MaxConfigs
  {
    StoreSpec([], s);
    var r := Store([], s);
    assert r == s[..|r|];
    GroupedPrefix(sp, n, s, |r|);
  }

  /** Running array `a` after arrays 0..a-1 extends the buffer to arrays 0..a. */
  lemma NextArray(t: Trig, env: Environment, speaker: Speaker, sp: Spacing, baseHeight: real, targetFloor: real,
                  a: nat, configs: seq<SpeakerConfig>)
    requires configs == Store([], AllPlaced(t, env, speaker, sp, baseHeight, targetFloor, a))
    ensures Store(configs, Stack(t, JobFor(env, speaker, sp, baseHeight, targetFloor, a)).placed)
            == Store([], AllPlaced(t, env, speaker, sp, baseHeight, targetFloor, a + 1))
  {
    StoreTwice([], AllPlaced(t, env, speaker, sp, baseHeight, targetFloor, a),
               Stack(t, JobFor(env, speaker, sp, baseHeight, targetFloor, a)).placed);
  }

  /** One pass of the entry point's loop over arrays: array `a` (1-based id
      `a + 1`) stands at `startX + a * step` and appends its records to the
      buffer holding those of the arrays before it. */
  method ConfigureArray(t: Trig, env: Environment, speaker: Speaker, sp: Spacing, baseHeight: real, targetFloor: real,
                        a: nat, configs: seq<SpeakerConfig>)
    returns (configs': seq<SpeakerConfig>)
    requires configs == Store([], AllPlaced(t, env, speaker, sp, baseHeight, targetFloor, a))
    ensures configs' == Store([], AllPlaced(t, env, speaker, sp, baseHeight, targetFloor, a + 1))
  {
    var arrayX := sp.startX + (a as real) * sp.step;
    var job := ArrayJob(env, speaker, a + 1, arrayX, baseHeight, targetFloor);
    StepsIsProduct(a, sp.step);
    assert job == JobFor(env, speaker, sp, baseHeight, targetFloor, a);
    NextArray(t, env, speaker, sp, baseHeight, targetFloor, a, configs);
    var placed, stop;
    configs', placed, stop := CalculateArrayConfiguration(t, job, configs);
  }

  /** The entry point's loop over arrays. The buffer ends up holding the
      first `MaxConfigs` records of all arrays in order, grouped by array. */
  method ConfigureArrays(t: Trig, env: Environment, speaker: Speaker, sp: Spacing, baseHeight: real, targetFloor: real)
    returns (configs: seq<SpeakerConfig>)
    ensures configs == Store([], AllPlaced(t, env, speaker, sp, baseHeight, targetFloor, sp.numArrays))
    ensures |configs| <= MaxConfigs
    ensures Grouped(sp, sp.numArrays, configs)
  {
    configs := [];
    var a := 0;
    while a < sp.numArrays
      invariant 0 <= a
      invariant a <= sp.numArrays || (a == 0 && AllPlaced(t, env, speaker, sp, baseHeight, targetFloor, sp.numArrays) == [])
      invariant configs == Store([], AllPlaced(t, env, speaker, sp, baseHeight, targetFloor, a))
    {
      configs := ConfigureArray(t, env, speaker, sp, baseHeight, targetFloor, a, configs);
      a := a + 1;
    }
    ghost var all := AllPlaced(t, env, speaker, sp, baseHeight, targetFloor, sp.numArrays);
    if sp.numArrays <= 0 {
      assert configs == Store([], []) == Store([], all);
    } else {
      assert a == sp.numArrays;
    }
    AllPlacedGrouped(t, env, speaker, sp, baseHeight, targetFloor, sp.numArrays);
    StoreKeepsGrouped(sp, sp.numArrays, all);
  }

  // ---------------------------------------------------------------------
  // The entry point

  /** The configuration constants of the entry point. */
  const TargetFloor: real := 0.1
  const OverlapFactor: real := 0.5

  /** Top mount height: one metre below the hall's length (its height). */
  function BaseHeight(env: Environment): real
  {
    env.length - 1.0
  }

  datatype Plan =
    | Rejected(error: InputError)
    | UndefinedSpacing
    | Planned(spacing: Spacing, configs: seq<SpeakerConfig>)

  /** The planning part of the entry point: validate, derive the spacing,
      stack every array. */
  method PlanVenue(t: Trig, env: Environment, speaker: Speaker) returns (plan: Plan)
    ensures plan.Rejected? <==> ValidateInputs(env, speaker) != Valid
    ensures plan.Rejected? ==> ValidateInputs(env, speaker) == Invalid(plan.error)
    ensures plan.UndefinedSpacing? <==>
              ValidateInputs(env, speaker) == Valid
              && ArraySpacing(t, env, speaker, BaseHeight(env), OverlapFactor).None?
    ensures plan.Planned? ==>
              && Some(plan.spacing) == ArraySpacing(t, env, speaker, BaseHeight(env), OverlapFactor)
              && plan.spacing.numArrays >= 1
              && |plan.configs| <= MaxConfigs
              && Grouped(plan.spacing, plan.spacing.numArrays, plan.configs)
              && plan.configs == Store([], AllPlaced(t, env, speaker, plan.spacing, BaseHeight(env), TargetFloor,
                                                    plan.spacing.numArrays))
  {
    var v := ValidateInputs(env, speaker);
    if v.Invalid? {
      return Rejected(v.error);
    }
    var baseHeight := BaseHeight(env);
    var spacing := ArraySpacing(t, env, speaker, baseHeight, OverlapFactor);
    if spacing.None? {
      return UndefinedSpacing;
    }
    ArraysInsideHall(t, env, speaker, baseHeight, OverlapFactor);
    var configs := ConfigureArrays(t, env, speaker, spacing.value, baseHeight, TargetFloor);
    return Planned(spacing.value, configs);
  }
}

=== FILE: stacker.dfy ===
/** The per-array stacker, `calculate_array_configuration`.

    Starting from the top mount height it places one cabinet per step,
    aims it so its coverage ends where the previous cabinet's began
    (the back wall for the first one), and stops when the next cabinet
    would sit at or below the floor clearance, when its coverage would
    reach the stage, or after the twentieth cabinet. Placed cabinets are
    appended to a shared buffer of at most 100 records.

    `StackFrom` is the reference definition of one array's run;
    `CalculateArrayConfiguration` is the loop of `calculate_array_configuration`, proved to
    compute it.
 */
module Stacker {
  import opened Geometry
  import opened Venue

  /** Per-array safety cap on placed cabinets. */
  const MaxPerArray: nat := 20

  /** Capacity of the shared record buffer. */
  const MaxConfigs: nat := 100

  /** Why a run stopped (the three stop messages `calculate_array_configuration` prints). */
  datatype StopReason = MinimumHeight | CoverageExhausted | SpeakerLimit

  /** The fixed inputs of one call of the stacker. */
  datatype ArrayJob = ArrayJob(
    env: Environment,
    speaker: Speaker,
    arrayId: int,
    arrayX: real,
    baseHeight: real,
    targetFloor: real)

  /** The cabinets one array places, top first, and why it stopped. */
  datatype Run = Run(placed: seq<SpeakerConfig>, stop: StopReason)

  /** Mount height of the cabinet with loop index `i`. */
  function CandidateHeight(job: ArrayJob, i: nat): real
  {
    job.baseHeight - (i as real) * job.speaker.boxHeight
  }

  /** The pitch chosen for a cabinet and the footprint it then has. */
  datatype Aim = Aim(pitch: real, axes: Axes)

  /** Pitch solved at the mount height for `targetEnd`, footprint taken at
      the mouth, which the pitch lowers by `boxHeight * sin(pitch)`. */
  function AimCabinet(t: Trig, job: ArrayJob, height: real, targetEnd: real): (r: Aim)
    ensures r.pitch == TiltForEndDistance(t, height, job.speaker.vertDispersionDeg, targetEnd)
    ensures r.axes.major >= 0.0 && r.axes.minor >= 0.0
    ensures height - job.speaker.boxHeight * t.sin(Radians(r.pitch)) <= 0.0 ==> r.axes == Axes(0.0, 0.0)
  {
    var pitch := TiltForEndDistance(t, height, job.speaker.vertDispersionDeg, targetEnd);
    var mouthHeight := height - job.speaker.boxHeight * t.sin(Radians(pitch));
    Aim(pitch, EllipseAxes(t, mouthHeight, pitch, job.speaker.vertDispersionDeg, job.speaker.horizDispersionDeg))
  }

  /** For a mouth above the floor the footprint is the cut of the cone at the
      mouth height, with the solved pitch: its length is positive exactly when
      the far edge lies beyond the near edge, and is then their distance; its
      width, when positive, is twice the half spread. */
  lemma AimAtMouth(t: Trig, job: ArrayJob, height: real, targetEnd: real)
    ensures var r := AimCabinet(t, job, height, targetEnd);
            var mouth := height - job.speaker.boxHeight * t.sin(Radians(r.pitch));
            var vDisp := job.speaker.vertDispersionDeg;
            mouth > 0.0 ==>
              && (r.axes.major > 0.0 <==> FarEdge(t, mouth, r.pitch, vDisp) > NearEdge(t, mouth, r.pitch, vDisp))
              && (r.axes.major > 0.0 ==> r.axes.major == FarEdge(t, mouth, r.pitch, vDisp) - NearEdge(t, mouth, r.pitch, vDisp))
              && (r.axes.minor > 0.0 ==> r.axes.minor == 2.0 * HalfSpread(t, mouth, job.speaker.horizDispersionDeg))
  {
    var r := AimCabinet(t, job, height, targetEnd);
    var mouth := height - job.speaker.boxHeight * t.sin(Radians(r.pitch));
    if mouth > 0.0 {
      EllipseAxesEdges(t, mouth, r.pitch, job.speaker.vertDispersionDeg, job.speaker.horizDispersionDeg);
    }
  }

  /** Near end of the coverage of cabinet `i` when its far end is `targetEnd`:
      never behind `targetEnd`, since the footprint length is clamped at zero. */
  function CoverageStart(t: Trig, job: ArrayJob, i: nat, targetEnd: real): (r: real)
    ensures r <= targetEnd
  {
    targetEnd - AimCabinet(t, job, CandidateHeight(job, i), targetEnd).axes.major
  }

  /** What one pass of the loop body does at index `i`. */
  datatype Step = Floor | Exhausted | Place(config: SpeakerConfig)

  /** One pass of the loop body: the floor test comes first, then the
      coverage test, and only a candidate passing both yields a record,
      whose interval ends at `targetEnd` and lies in (0, targetEnd]. */
  function StepAt(t: Trig, job: ArrayJob, i: nat, targetEnd: real): (r: Step)
    ensures r == Floor <==> CandidateHeight(job, i) <= job.targetFloor
    ensures r == Exhausted <==>
              CandidateHeight(job, i) > job.targetFloor && CoverageStart(t, job, i, targetEnd) <= 0.0
    ensures r.Place? ==>
              && r.config.speakerId == i + 1
              && r.config.height == CandidateHeight(job, i) > job.targetFloor
              && r.config.coverageStart == CoverageStart(t, job, i, targetEnd)
              && 0.0 < r.config.coverageStart <= r.config.coverageEnd == targetEnd
              && r.config.pitchDeg == TiltForEndDistance(t, CandidateHeight(job, i), job.speaker.vertDispersionDeg, targetEnd)
              && r.config.coverageWidth == AimCabinet(t, job, CandidateHeight(job, i), targetEnd).axes.minor >= 0.0
              && r.config.arrayId == job.arrayId
              && r.config.xPosition == job.arrayX
  {
    var height := CandidateHeight(job, i);
    if height <= job.targetFloor then
      Floor
    else
      var aim := AimCabinet(t, job, height, targetEnd);
      var targetStart := targetEnd - aim.axes.major;
      if targetStart <= 0.0 then
        Exhausted
      else
        Place(SpeakerConfig(i + 1, height, aim.pitch, targetStart, targetEnd,
                            aim.axes.minor, job.arrayX, job.arrayId))
  }

  /** The run from loop index `i` with `targetEnd` still to be covered. */
  function StackFrom(t: Trig, job: ArrayJob, i: nat, targetEnd: real): (r: Run)
    requires i < MaxPerArray
    ensures |r.placed| <= MaxPerArray - i
    ensures r.stop == SpeakerLimit <==> |r.placed| == MaxPerArray - i
    decreases MaxPerArray - i
  {
    match StepAt(t, job, i, targetEnd)
    case Floor => Run([], MinimumHeight)
    case Exhausted => Run([], CoverageExhausted)
    case Place(config) =>
      if i + 1 >= MaxPerArray then
        Run([config], SpeakerLimit)
      else
        var rest := StackFrom(t, job, i + 1, config.coverageStart);
        Run([config] + rest.placed, rest.stop)
  }

  /** A whole array's run: from the top index, covering the full hall depth. */
  function Stack(t: Trig, job: ArrayJob): Run
  {
    StackFrom(t, job, 0, job.env.depth)
  }

  // ---------------------------------------------------------------------
  // Shape of a run

  /** Records `placed` carry loop indices `i0`, `i0 + 1`, ... : 1-based ids,
      heights stepping down by one box from the base, all above the floor
      clearance, and the array's id and position. */
  predicate IndexedFrom(job: ArrayJob, i0: nat, placed: seq<SpeakerConfig>)
  {
    forall k :: 0 <= k < |placed| ==>
      && placed[k].speakerId == i0 + k + 1
      && placed[k].height == CandidateHeight(job, i0 + k)
      && placed[k].height > job.targetFloor
      && placed[k].arrayId == job.arrayId
      && placed[k].xPosition == job.arrayX
  }

  /** The coverage intervals tile back to front from `end`: the first ends at
      `end` and each later one ends where its predecessor starts. */
  predicate Tiles(placed: seq<SpeakerConfig>, end: real)
  {
    && (|placed| > 0 ==> placed[0].coverageEnd == end)
    && forall k :: 0 < k < |placed| ==> placed[k].coverageEnd == placed[k - 1].coverageStart
  }

  /** Every interval is possibly empty (start = end, when the footprint length
      is 0) and lies in (0, end]. */
  predicate Within(placed: seq<SpeakerConfig>, end: real)
  {
    forall k :: 0 <= k < |placed| ==>
      0.0 < placed[k].coverageStart <= placed[k].coverageEnd <= end
  }

  /** Later cabinets cover nearer ground: no interval reaches past the start
      of any earlier one. */
  predicate Ordered(placed: seq<SpeakerConfig>)
  {
    forall j, k :: 0 <= j < k < |placed| ==> placed[k].coverageEnd <= placed[j].coverageStart
  }

  /** All shape facts of a run from index `i0` with `end` left to cover. */
  predicate WellStacked(job: ArrayJob, i0: nat, placed: seq<SpeakerConfig>, end: real)
  {
    IndexedFrom(job, i0, placed) && Tiles(placed, end) && Within(placed, end) && Ordered(placed)
  }

  /** Putting a record that starts the tiling at `end` on top of a well
      stacked rest keeps the stack well stacked. */
  lemma ConsWellStacked(job: ArrayJob, i: nat, config: SpeakerConfig, rest: seq<SpeakerConfig>, end: real)
    requires config.speakerId == i + 1
    requires config.height == CandidateHeight(job, i) > job.targetFloor
    requires config.arrayId == job.arrayId && config.xPosition == job.arrayX
    requires 0.0 < config.coverageStart <= config.coverageEnd == end
    requires WellStacked(job, i + 1, rest, config.coverageStart)
    ensures WellStacked(job, i, [config] + rest, end)
  {
    var placed := [config] + rest;
    forall k | 1 <= k < |placed|
      ensures placed[k] == rest[k - 1]
    {
    }
    assert IndexedFrom(job, i, placed);
    assert Tiles(rest, config.coverageStart);
    forall k | 1 <= k < |placed|
      ensures placed[k].coverageEnd == placed[k - 1].coverageStart
    {
      if k == 1 {
        assert rest[0].coverageEnd == config.coverageStart;
      } else {
        assert rest[k - 1].coverageEnd == rest[k - 2].coverageStart;
      }
    }
    assert Tiles(placed, end);
    assert Within(placed, end);
    forall j, k | 0 <= j < k < |placed|
      ensures placed[k].coverageEnd <= placed[j].coverageStart
    {
      if j > 0 {
        assert rest[k - 1].coverageEnd <= rest[j - 1].coverageStart;
      }
    }
  }

  lemma {:induction false} StackShape(t: Trig, job: ArrayJob, i: nat, targetEnd: real)
    requires i < MaxPerArray
    ensures WellStacked(job, i, StackFrom(t, job, i, targetEnd).placed, targetEnd)
    decreases MaxPerArray - i
  {
    var step := StepAt(t, job, i, targetEnd);
    if step.Place? {
      var config := step.config;
      if i + 1 < MaxPerArray {
        StackShape(t, job, i + 1, config.coverageStart);
        ConsWellStacked(job, i, config, StackFrom(t, job, i + 1, config.coverageStart).placed, targetEnd);
      } else {
        ConsWellStacked(job, i, config, [], targetEnd);
        assert [config] + [] == [config];
      }
    }
  }

  /** Each record is the cabinet aimed from its mount height at the far end
      of its interval: its pitch is the tilt solved for that end, its stored
      width is the footprint's minor axis (never negative), and its interval
      is as long as the footprint's major axis. */
  predicate Aimed(t: Trig, job: ArrayJob, placed: seq<SpeakerConfig>)
  {
    forall k :: 0 <= k < |placed| ==>
      && placed[k].pitchDeg
         == TiltForEndDistance(t, placed[k].height, job.speaker.vertDispersionDeg, placed[k].coverageEnd)
      && placed[k].coverageWidth
         == AimCabinet(t, job, placed[k].height, placed[k].coverageEnd).axes.minor >= 0.0
      && placed[k].coverageEnd - placed[k].coverageStart
         == AimCabinet(t, job, placed[k].height, placed[k].coverageEnd).axes.major
  }

  lemma {:induction false} StackAimed(t: Trig, job: ArrayJob, i: nat, targetEnd: real)
    requires i < MaxPerArray
    ensures Aimed(t, job, StackFrom(t, job, i, targetEnd).placed)
    decreases MaxPerArray - i
  {
    var step := StepAt(t, job, i, targetEnd);
    if step.Place? && i + 1 < MaxPerArray {
      var config := step.config;
      var rest := StackFrom(t, job, i + 1, config.coverageStart).placed;
      StackAimed(t, job, i + 1, config.coverageStart);
      var placed := [config] + rest;
      forall k | 1 <= k < |placed|
        ensures placed[k] == rest[k - 1]
      {
      }
    }
  }

  /** What `calculate_array_configuration` guarantees of one array: records
      are indexed from 1 with heights `base - i * box` above the floor
      clearance; coverage tiles contiguously from the hall's back wall toward
      the stage; every interval lies in (0, depth]; each pitch is the tilt
      solved for its interval's far end, each width is that cabinet's
      footprint minor axis and each interval is as long as its major axis; at
      most 20 cabinets are placed, and the limit is the stop reason exactly
      when 20 were placed. */
  lemma ArrayShape(t: Trig, job: ArrayJob)
    ensures |Stack(t, job).placed| <= MaxPerArray
    ensures Stack(t, job).stop == SpeakerLimit <==> |Stack(t, job).placed| == MaxPerArray
    ensures IndexedFrom(job, 0, Stack(t, job).placed)
    ensures Tiles(Stack(t, job).placed, job.env.depth)
    ensures Within(Stack(t, job).placed, job.env.depth)
    ensures Ordered(Stack(t, job).placed)
    ensures WellStacked(job, 0, Stack(t, job).placed, job.env.depth)
    ensures Aimed(t, job, Stack(t, job).placed)
  {
    StackShape(t, job, 0, job.env.depth);
    StackAimed(t, job, 0, job.env.depth);
  }

  /** Each way a whole array's run stops is justified by the candidate it
      did not place. */
  lemma ArrayStop(t: Trig, job: ArrayJob)
    ensures StopJustified(t, job, 0, Stack(t, job).placed, job.env.depth, Stack(t, job).stop)
  {
    StopFrom(t, job, 0, job.env.depth);
  }

  lemma RunFacts(t: Trig, job: ArrayJob, placed: seq<SpeakerConfig>, stop: StopReason)
    requires Run(placed, stop) == Stack(t, job)
    ensures WellStacked(job, 0, placed, job.env.depth)
    ensures Aimed(t, job, placed)
  {
    ArrayShape(t, job);
  }

  /** With a positive box height (which `validate_inputs` demands) mount
      heights strictly decrease down the stack. */
  lemma HeightsDescend(t: Trig, job: ArrayJob)
    requires job.speaker.boxHeight > 0.0
    ensures forall j, k :: 0 <= j < k < |Stack(t, job).placed| ==>
              Stack(t, job).placed[j].height > Stack(t, job).placed[k].height
  {
    var placed := Stack(t, job).placed;
    StackShape(t, job, 0, job.env.depth);
    forall j, k | 0 <= j < k < |placed|
      ensures placed[j].height > placed[k].height
    {
      StepDown(job, j, k);
    }
  }

  lemma StepDown(job: ArrayJob, j: nat, k: nat)
    requires job.speaker.boxHeight > 0.0 && j < k
    ensures CandidateHeight(job, j) > CandidateHeight(job, k)
  {
    var b := job.speaker.boxHeight;
    assert (k as real) * b - (j as real) * b == ((k - j) as real) * b;
  }

  // ---------------------------------------------------------------------
  // Stop conditions

  /** Far end still to be covered after `placed` when `end` was left before. */
  function NextEnd(placed: seq<SpeakerConfig>, end: real): real
  {
    if |placed| == 0 then end else placed[|placed| - 1].coverageStart
  }

  /** The stop reason is justified by the cabinet that was NOT placed: for a
      floor stop the next candidate is at or below the floor clearance; for a
      coverage stop it is above the floor but its coverage would start at or
      before the stage; otherwise the cap was reached. */
  predicate StopJustified(t: Trig, job: ArrayJob, i0: nat, placed: seq<SpeakerConfig>, end: real, stop: StopReason)
  {
    var n := i0 + |placed|;
    match stop
    case MinimumHeight => StepAt(t, job, n, NextEnd(placed, end)) == Floor
    case CoverageExhausted => StepAt(t, job, n, NextEnd(placed, end)) == Exhausted
    case SpeakerLimit => n == MaxPerArray
  }

  lemma {:induction false} StopFrom(t: Trig, job: ArrayJob, i: nat, targetEnd: real)
    requires i < MaxPerArray
    ensures StopJustified(t, job, i, StackFrom(t, job, i, targetEnd).placed, targetEnd,
                          StackFrom(t, job, i, targetEnd).stop)
    decreases MaxPerArray - i
  {
    var step := StepAt(t, job, i, targetEnd);
    if step.Place? && i + 1 < MaxPerArray {
      var config := step.config;
      var r := StackFrom(t, job, i + 1, config.coverageStart);
      StopFrom(t, job, i + 1, config.coverageStart);
      var placed := [config] + r.placed;
      assert placed == StackFrom(t, job, i, targetEnd).placed;
      assert NextEnd(placed, targetEnd) == NextEnd(r.placed, config.coverageStart);
    }
  }

  /** A mount height at or below the floor clearance places nothing. */
  lemma NothingBelowFloor(t: Trig, job: ArrayJob)
    requires job.baseHeight <= job.targetFloor
    ensures Stack(t, job) == Run([], MinimumHeight)
  {
  }

  // ---------------------------------------------------------------------
  // The shared buffer

  /** Appending one array's records to the shared buffer: records are kept
      while the buffer holds fewer than `MaxConfigs`, later ones are dropped. */
  function Store(buffer: seq<SpeakerConfig>, placed: seq<SpeakerConfig>): (r: seq<SpeakerConfig>)
    ensures |buffer| <= |r| <= |buffer| + |placed|
    ensures |buffer| <= MaxConfigs ==> |r| <= MaxConfigs
  {
    if |buffer| >= MaxConfigs then buffer
    else if |buffer| + |placed| <= MaxConfigs then buffer + placed
    else buffer + placed[..MaxConfigs - |buffer|]
  }

  /** What the buffer keeps: earlier entries are never modified, the new
      entries are the first placements in order, the buffer never grows past
      `MaxConfigs` (nor shrinks), and a placement is dropped only once the
      buffer is full. */
  lemma StoreSpec(buffer: seq<SpeakerConfig>, placed: seq<SpeakerConfig>)
    ensures var r := Store(buffer, placed);
            && buffer <= r
            && r[|buffer|..] <= placed
            && (|r| <= MaxConfigs || r == buffer)
            && (|r| < MaxConfigs ==> r == buffer + placed)
  {
  }

  /** Storing one more record is the guarded append of
      `calculate_array_configuration`. */
  lemma StoreOne(buffer: seq<SpeakerConfig>, placed: seq<SpeakerConfig>, config: SpeakerConfig)
    ensures Store(buffer, placed + [config]) ==
            (var b := Store(buffer, placed); if |b| < MaxConfigs then b + [config] else b)
  {
    var b := Store(buffer, placed);
    if |buffer| < MaxConfigs && |buffer| + |placed| + 1 > MaxConfigs {
      assert (placed + [config])[..MaxConfigs - |buffer|] == placed[..MaxConfigs - |buffer|];
    }
  }

  /** Storing two batches one after the other is storing them together. */
  lemma StoreTwice(buffer: seq<SpeakerConfig>, p: seq<SpeakerConfig>, q: seq<SpeakerConfig>)
    ensures Store(Store(buffer, p), q) == Store(buffer, p + q)
  {
    if |buffer| < MaxConfigs && |buffer| + |p| < MaxConfigs && |buffer| + |p| + |q| > MaxConfigs {
      assert (p + q)[..MaxConfigs - |buffer|] == p + q[..MaxConfigs - |buffer| - |p|];
    } else if |buffer| < MaxConfigs && |buffer| + |p| >= MaxConfigs {
      assert (p + q)[..MaxConfigs - |buffer|] == p[..MaxConfigs - |buffer|];
    }
  }

  // ---------------------------------------------------------------------
  // The loop of `calculate_array_configuration`

  /** The `for (int i = 0; ; i++)` loop as a tail-recursive function: `acc` holds the
      records already placed before index `i`. */
  function Loop(t: Trig, job: ArrayJob, i: nat, targetEnd: real, acc: seq<SpeakerConfig>): Run
    requires i < MaxPerArray
    decreases MaxPerArray - i
  {
    match StepAt(t, job, i, targetEnd)
    case Floor => Run(acc, MinimumHeight)
    case Exhausted => Run(acc, CoverageExhausted)
    case Place(config) =>
      if i + 1 >= MaxPerArray then Run(acc + [config], SpeakerLimit)
      else Loop(t, job, i + 1, config.coverageStart, acc + [config])
  }

  /** Running the loop on from index `i` appends the reference run from `i`. */
  lemma {:induction false} LoopIsStack(t: Trig, job: ArrayJob, i: nat, targetEnd: real, acc: seq<SpeakerConfig>)
    requires i < MaxPerArray
    ensures Loop(t, job, i, targetEnd, acc)
            == Run(acc + StackFrom(t, job, i, targetEnd).placed, StackFrom(t, job, i, targetEnd).stop)
    decreases MaxPerArray - i
  {
    match StepAt(t, job, i, targetEnd)
    case Floor =>
      assert acc + [] == acc;
    case Exhausted =>
      assert acc + [] == acc;
    case Place(config) =>
      if i + 1 < MaxPerArray {
        var rest := StackFrom(t, job, i + 1, config.coverageStart);
        LoopIsStack(t, job, i + 1, config.coverageStart, acc + [config]);
        assert (acc + [config]) + rest.placed == acc + ([config] + rest.placed);
      }
  }

  method CalculateArrayConfiguration(t: Trig, job: ArrayJob, configs: seq<SpeakerConfig>)
    returns (configs': seq<SpeakerConfig>, placed: seq<SpeakerConfig>, stop: StopReason)
    ensures Run(placed, stop) == Stack(t, job)
    ensures configs' == Store(configs, placed)
    ensures |placed| <= MaxPerArray
    ensures stop == SpeakerLimit <==> |placed| == MaxPerArray
    ensures WellStacked(job, 0, placed, job.env.depth)
    ensures Aimed(t, job, placed)
  {
    ghost var whole := Loop(t, job, 0, job.env.depth, []);
    var targetEnd := job.env.depth;
    var speakerCount := 0;
    var i := 0;
    configs' := configs;
    placed := [];
    while true
      invariant 0 <= i == speakerCount == |placed| < MaxPerArray
      invariant configs' == Store(configs, placed)
      invariant Loop(t, job, i, targetEnd, placed) == whole
      decreases MaxPerArray - i
    {
      var currentHeight := CandidateHeight(job, i);
      if currentHeight <= job.targetFloor {
        stop := MinimumHeight;
        break;
      }
      var aim := AimCabinet(t, job, currentHeight, targetEnd);
      var pitch := aim.pitch;
      var axes := aim.axes;
      var targetStart := targetEnd - axes.major;
      if targetStart <= 0.0 {
        stop := CoverageExhausted;
        break;
      }
      var config := SpeakerConfig(i + 1, currentHeight, pitch, targetStart, targetEnd,
                                  axes.minor, job.arrayX, job.arrayId);
      assert StepAt(t, job, i, targetEnd) == Place(config);
      StoreOne(configs, placed, config);
      if |configs'| < MaxConfigs {
        configs' := configs' + [config];
      }
      placed := placed + [config];
      targetEnd := targetStart;
      speakerCount := speakerCount + 1;
      if speakerCount >= MaxPerArray {
        stop := SpeakerLimit;
        break;
      }
      i := i + 1;
    }
    LoopIsStack(t, job, 0, job.env.depth, []);
    assert [] + Stack(t, job).placed == Stack(t, job).placed;
    RunFacts(t, job, placed, stop);
  }
}

=== FILE: venue.dfy ===
/** The planner's records: the hall, the speaker model, and one placed
    cabinet, with the entry validation the planner runs before stacking. */
module Venue {

  /** Hall dimensions in metres; `depth` runs from the stage to the back wall. */
  datatype Environment = Environment(width: real, length: real, depth: real)

  /** A speaker model's data sheet. Only the box height and the two
      dispersion angles take part in the geometry. */
  datatype Speaker = Speaker(
    model: string,
    yawDeg: real,
    splPeakDb: real,
    bandwidthLowHz: real,
    bandwidthHighHz: real,
    horizDispersionDeg: real,
    vertDispersionDeg: real,
    maxThrowM: real,
    weightKg: real,
    boxHeight: real,
    numLf: int,
    numMf: int,
    numHf: int)

  /** One placed cabinet: its 1-based index in its array, mount height, pitch
      in degrees, the depth interval [coverageStart, coverageEnd] it covers,
      the width of its footprint, and the array it belongs to. */
  datatype SpeakerConfig = SpeakerConfig(
    speakerId: int,
    height: real,
    pitchDeg: real,
    coverageStart: real,
    coverageEnd: real,
    coverageWidth: real,
    xPosition: real,
    arrayId: int)

  /** The two ways `validate_inputs` rejects a run, in the order it checks them. */
  datatype InputError = NonPositiveDimensions | NonPositiveSpeakerParameters

  datatype Validation = Valid | Invalid(error: InputError)

  predicate PositiveDimensions(env: Environment)
  {
    env.width > 0.0 && env.length > 0.0 && env.depth > 0.0
  }

  /** The speaker fields the geometry divides by or steps with. */
  predicate PositiveSpeakerParameters(speaker: Speaker)
  {
    speaker.boxHeight > 0.0 && speaker.vertDispersionDeg > 0.0 && speaker.horizDispersionDeg > 0.0
  }

  /** `validate_inputs`: a run is accepted exactly when the hall and the
      speaker's geometric fields are all positive; the hall is checked first. */
  function ValidateInputs(env: Environment, speaker: Speaker): (r: Validation)
    ensures r == Valid <==> PositiveDimensions(env) && PositiveSpeakerParameters(speaker)
    ensures r == Invalid(NonPositiveDimensions) <==> !PositiveDimensions(env)
    ensures r == Invalid(NonPositiveSpeakerParameters) <==>
              PositiveDimensions(env) && !PositiveSpeakerParameters(speaker)
  {
    if env.width <= 0.0 || env.length <= 0.0 || env.depth <= 0.0 then
      Invalid(NonPositiveDimensions)
    else if speaker.boxHeight <= 0.0 || speaker.vertDispersionDeg <= 0.0 || speaker.horizDispersionDeg <= 0.0 then
      Invalid(NonPositiveSpeakerParameters)
    else
      Valid
  }
}
